=== FILE: README.md ===
# graphviz-get request handling in Dafny

graphviz-get is a small HTTP gateway in front of Graphviz. A client asks for
`GET /<format>?<graph> HTTP/1.x`. The gateway:

1. answers browser probes (`/favicon.ico`, `/robots.txt`) with 404;
2. picks the format and the raw query out of the request line with a regular
   expression;
3. checks the format against five known ones;
4. decodes the query in stages:
   - percent-decoding, but only when the query contains `%20`;
   - base64, when the query matches the base64 pattern;
   - gzip, when the decoded bytes carry the gzip magic: more than three bytes,
     starting with 1f 8b 08;
5. pipes the result into `dot -T<format>`;
6. writes back a hand-built HTTP/1.1 reply: 200 with the rendered output, 400 or 404 with a
   plain-text error, or 500 with the renderer's error, its standard error, its
   standard output and the payload it was given.

This project models `handleRequest` and `newHttpResponse` of `main.go` as pure
functions. The input is the first request line, after the line scanner has
removed its line end. The output is the bytes of the reply. The renderer and the gzip inflater are parameters
(`Handler.Renderer`, `Payload.Inflater`), so every property holds for every
renderer and inflater.

Modules, one per concern:

- `Bytes`: bytes, `Option`/`Result`, substring search (`strings.Contains`), decimal formatting (`strconv.Itoa`);
- `RequestLine`: the pattern `^GET /(.+?)\?(.+) HTTP/1\..+` as a hand-written recogniser, with a declarative meaning (`MatchAt`) it is proved against;
- `Formats`: the format switch;
- `PercentCoding`: `url.QueryUnescape`, a client-side encoder, and the error text Go gives for a bad escape;
- `Base64`: the base64 pattern, Go's `base64.StdEncoding` decoder on the strings that pattern accepts, an encoder;
- `Payload`: the three decoding stages and their gates;
- `HttpResponse`: `newHttpResponse`, with a client-side reader that checks the framing;
- `Handler`: the decision sequence, the reply for each outcome, and end-to-end properties.

The regular expressions are matched on bytes. Every literal in both patterns is ASCII, and no byte of a multi-byte
UTF-8 sequence is ASCII. So matching byte by byte accepts the same lines, with
the same groups, as Go's matching rune by rune.

The format is not simply "the text before the first `?`". Group 1 is
`(.+?)`, which must consume at least one byte, so it may itself start with
`?`. For example `GET /?svg?x HTTP/1.1` gives the format `?svg` (then rejected as
unknown), not an empty format. `RequestLine.MatchAt` requires the `?` after
group 1 to be at index 6 or later.

## Model

| member | source | states |
|---|---|---|
| Bytes.Contains | main.go:73 | substring search answers true exactly when the pattern occurs at some index |
| Bytes.OccursInContext | main.go:117 | a proof helper, not a model of a source line: an occurrence inside a string is still an occurrence once text is added before and after it; it is what lets the `%20` test see an encoded space anywhere in the query |
| Bytes.Decimal | main.go:34 | `strconv.Itoa` of a length gives at least one digit, only digits, and no leading zero |
| Bytes.DecimalRoundTrip | main.go:34 | reading the Content-Length digits back as a number gives the body's length |
| RequestLine.ParseRequestLine | main.go:79-88 | an accepted line yields a non-empty, newline-free format and query |
| RequestLine.MatchIndicesSound | main.go:21 | every (format, query) split the recogniser reports is a match of the request-line pattern |
| RequestLine.MatchIndicesLeftmostFirst | main.go:21 | whenever the pattern matches, the recogniser finds a match, and it is the one leftmost-first matching picks: the shortest group 1, then for it the longest group 2 |
| RequestLine.ParseRejectsExactlyNonMatches | main.go:79-85 | a line is rejected if and only if the pattern has no match in it |
| RequestLine.ParseBuiltLine | main.go:79-109 | a line `GET /<format>?<query> HTTP/1.<c>` is read back as exactly that format and query, provided the format is non-empty and holds no `?` or newline, the query is non-empty and holds no newline, and `c` is not a newline |
| RequestLine.EmptyQueryLineRejected | main.go:21 | a line `GET /<format>? HTTP/1.<c>`, with a non-empty format holding no `?` and nothing between `?` and ` HTTP/1.`, does not match, because group 2 needs at least one byte |
| RequestLine.QuestionMarkAndGetRequired | main.go:21 | a line without a `?`, or that does not begin with `GET /`, is rejected |
| Formats.Token | main.go:91-101 | each format's path token is non-empty and holds no `?`, newline or space |
| Formats.ContentType | main.go:92-101 | no Content-Type value holds a carriage return, so the header framing stays intact |
| Formats.RendererFlag | main.go:164 | the renderer flag is `-T` followed by the very token the client wrote in the path, whichever token selected the format |
| Formats.Resolve | main.go:91-106 | a token resolves to a format exactly when it is that format's token; every other token is rejected |
| Formats.ResolveToken | main.go:91-101 | resolving a format's own token gives that format back |
| PercentCoding.QueryUnescape | main.go:119 | the decoded query is never longer than the raw query |
| PercentCoding.UnescapeSucceedsIffWellEscaped | main.go:119-124 | decoding succeeds if and only if every `%` is followed by two hex digits |
| PercentCoding.UnescapeReportsFirstBadEscape | main.go:119-123 | a failed decoding reports the fragment that starts at the first `%` without two hex digits |
| PercentCoding.UnescapeIdentity | main.go:119 | decoding leaves a query unchanged if and only if it holds no `%` and no `+` |
| PercentCoding.UnescapePlusFree | main.go:119 | a query with no `%` always decodes, to a string of the same length in which every `+` has become a space and every other byte is unchanged |
| PercentCoding.HexDigit | main.go:119-122 | the digit for a value below sixteen, in the case asked for, is a hex digit that decodes back to that value; its letters are lower-case when asked for, as in a client's encoding or Go's `\x` escapes, and upper-case otherwise |
| PercentCoding.Escape | main.go:117 | a client's percent-encoding, with hex digits in either case, holds no space, newline or `+`, so it fits in a request line |
| PercentCoding.UnescapeEscape | main.go:119 | decoding undoes a client's percent-encoding byte for byte, whether its hex digits are upper-case or lower-case |
| PercentCoding.EscapeMarksSpaces | main.go:117 | an encoded payload with a space in it contains `%20`, the gate for decoding, in either digit case |
| PercentCoding.QuoteBody | main.go:122 | printable bytes other than quote and backslash appear unescaped in the quoted fragment |
| PercentCoding.EscapeErrorText | main.go:122 | the text of Go's escape error is `invalid URL escape "` then the fragment then `"`; a fragment of printable bytes other than quote and backslash appears verbatim |
| Base64.PatternIsShape | main.go:49 | the base64 pattern accepts exactly the strings of length 4k made of alphabet characters, with `=` only as one or two trailing padding bytes |
| Base64.MatchesPattern | main.go:49 | a string the base64 pattern accepts has a length that is a multiple of four and holds only alphabet characters and `=` |
| Base64.ForeignByteBlocksPattern | main.go:49 | a byte outside `[A-Za-z0-9+/=]` anywhere keeps a string from matching |
| Base64.Decode | main.go:128-134 | the decoder succeeds exactly on the strings the pattern accepts, so the base64 error branch is unreachable; the output is at most three bytes per four characters |
| Base64.Encode | main.go:128 | an encoding of n bytes has length 4 * ceil(n/3) |
| Base64.EncodeAlphabet | main.go:49 | an encoding uses only alphabet characters and `=` |
| Base64.DecodeEncode | main.go:129 | decoding undoes encoding |
| Base64.EncodingMatchesPattern | main.go:128 | every encoding is recognised as base64 |
| Payload.UnescapeStage | main.go:116-125 | a query without `%20` passes unchanged; with `%20` it is decoded, failing if and only if an escape is malformed |
| Payload.GzipStage | main.go:136-151 | bytes that do not carry the gzip magic (more than three bytes, starting 1f 8b 08) pass unchanged; bytes that do are inflated, and the stage succeeds if and only if the inflater does |
| Payload.Base64Stage | main.go:127-154 | a string the pattern rejects passes unchanged, and the stage never fails with a base64 error |
| Payload.DecodeQuery | main.go:116-154 | the staged decoder never ends in a base64 error |
| Payload.InflaterOnlyBehindGate | main.go:136-137 | for a query whose decoded bytes do not reach the gzip gate, every inflater gives the same result |
| Payload.HasGzipMagic | main.go:137 | the gzip gate holds exactly when there are more than three bytes and the first three are 0x1f, 0x8b, 0x08 |
| Payload.PlainTextUnchanged | main.go:116-154 | plain graph text, with no `%20` and at least one byte outside `[A-Za-z0-9+/=]`, reaches the renderer exactly as sent |
| Payload.EncodingHasNoEncodedSpace | main.go:117 | base64 output never contains `%20`, so stage 1 leaves it alone |
| Payload.Base64RoundTrip | main.go:127-154 | a base64-encoded payload that does not carry the gzip magic (more than three bytes, starting 1f 8b 08) decodes back to itself |
| Payload.GzipRoundTrip | main.go:136-151 | a base64-encoded payload that carries the gzip magic decodes to what the inflater makes of it, or to the inflater's error |
| Payload.BareMagicNotInflated | main.go:137 | the three magic bytes alone are not inflated: the gate needs more than three bytes |
| Payload.PercentRoundTrip | main.go:116-154 | a percent-encoded payload with a space in it, in either digit case, decodes back to itself and is not then taken for base64 |
| HttpResponse.Serialize | main.go:23-47 | the reply ends with the body, unchanged |
| HttpResponse.ReadHeadJoinLines | main.go:26-43 | non-empty lines without carriage returns, each ended by CRLF and then a blank line, are read back as exactly those lines, with the rest as the body |
| HttpResponse.SerializeIsHeadThenBody | main.go:23-47 | the reply is its nine head lines, each ended by CRLF, then a blank line, then the body |
| HttpResponse.HeadDigits | main.go:26-35 | the status line's digits after `HTTP/1.1 ` are the status code and Content-Length's digits are the body's length |
| HttpResponse.Framing | main.go:23-47 | when the Content-Type holds no carriage return, a client reading the reply gets back the status line, the fixed fields and the body exactly; the status line's digits are the status code and Content-Length's digits are the body's length |
| Handler.Prepare | main.go:72-154 | a browser probe is answered before anything else, if and only if the line contains one; an early stop is never a success, a renderer failure, an empty query or a base64 error |
| Handler.Decide | main.go:51-188 | no request ends with the empty-query or the base64 error; exactly the probe lines end as probes |
| Handler.ToResponse | main.go:74-188 | only a rendered graph is a 200, only a failed renderer run a 500, only a probe a 404; every non-200 reply is plain text; a 500 body starts with `Error: ` and the error, and ends with the payload followed by four newlines |
| Handler.DecodeErrorBody | main.go:122-148 | every decode-error body starts with `Error: `; a gzip error body is `Error: Failed to inflate gzip: ` followed by the inflater's message; an escape error body starts with `Error: Failed to decode query: ` and ends with the closing quote of the quoted fragment |
| Handler.FailureBody | main.go:173-181 | the 500 body is `Error: `, the error, then stderr, stdout and the payload, each part followed by four newlines: the error sits right after `Error: `, the payload right before the last separator, and nothing else is added |
| Handler.HandleRequest | main.go:51-198 | a client reading the reply bytes finds the status, the header fields and exactly the body of the outcome's response |
| Handler.ProbeAnswered | main.go:72-76 | a probe line gets 404 `Error: file not found`, whatever the renderer and the inflater |
| Handler.IsProbe | main.go:73 | a line is a probe exactly when `GET /favicon.ico` or `GET /robots.txt` occurs in it at some index |
| Handler.RenderOnlyAfterDecoding | main.go:72-154 | a request stopped before rendering ends the same way for every renderer, with a 400 or a 404 |
| Handler.NonMatchingLineRejected | main.go:79-85 | a line that holds no browser probe and that the pattern does not match gets 400 `Error: Failed match pattern on full path` |
| Handler.UnknownFormatRejected | main.go:102-105 | a line that holds no browser probe, matches the pattern and names a format token outside the five known ones gets a 400 that quotes the token back |
| Handler.BadEscapeRejected | main.go:116-123 | a line that holds no browser probe, matches the pattern and names a known format, whose query contains `%20` and a malformed escape, gets 400 `Error: Failed to decode query: invalid URL escape` followed by the quoted fragment that starts at the first malformed `%` |
| Handler.RenderedReply | main.go:164-188 | an accepted request runs the renderer with `-T<format>` on the decoded payload; success gives 200 with the format's Content-Type and the output, failure gives 500 with the error, stderr, stdout and payload |
| Handler.NoProbeInBuiltLine | main.go:73 | a line `GET /<format>?<query> HTTP/1.<c>` contains no string of 13 or more bytes whose fourth and fifth bytes are ` /` and whose sixth byte differs from the format's first byte, provided the format is non-empty and neither format nor query holds a space; for the known formats both probes are such strings, while a format such as `favicon.ico` does make the line a probe |
| Handler.NoProbeForFormat | main.go:73 | no line built for a known format and a query without spaces is taken for a probe |
| Handler.BuiltLineDecoded | main.go:72-154 | a line `GET /<token>?<query> HTTP/1.<c>` for a known format's token, with a non-empty query free of spaces and newlines and `c` not a newline, passes the probe check, the pattern and the format switch, and its query reaches the decoder unchanged |
| Handler.EncodingFitsRequestLine | main.go:21 | base64 output holds no space and no newline, so it fits in a request line as the query |
| Handler.Base64RequestRendered | main.go:51-169 | a non-empty graph that does not carry the gzip magic, base64-encoded into a line `GET /<token>?<query> HTTP/1.<c>` for a known format with `c` not a newline, reaches the renderer exactly as the client had it, in the format asked for |
| Handler.GzipRequestRendered | main.go:127-169 | a payload that carries the gzip magic, base64-encoded into a line `GET /<token>?<query> HTTP/1.<c>` for a known format with `c` not a newline, reaches the renderer as the inflater's output, or fails with 400 and the inflater's message |
| Handler.PercentRequestRendered | main.go:116-169 | a graph with a space in it, percent-encoded with hex digits in either case into a line `GET /<token>?<query> HTTP/1.<c>` for a known format with `c` not a newline, reaches the renderer exactly as the client had it |

## Left out

- The TCP listener on port 8080, the accept loop and the per-connection goroutine (main.go:220-241) are left out: they are I/O and concurrency. The model starts from the first request line.
- Reading that line with `bufio.Scanner` (main.go:58-66) is left out, including the scanner's token-size limit. The early return when no line can be read writes nothing. The line is a parameter and is taken without its line end.
- Starting `dot` (main.go:164-169) and the `dot -V` check at start-up (main.go:203-218) are left out: the renderer is the `Handler.Renderer` parameter, called with the flag and the payload. Only an exit error versus success is modelled, not which kind of error.
- DEFLATE and the gzip header parsing in `gzip.NewReader`/`io.ReadAll` are left out: the inflater is the `Payload.Inflater` parameter. The failures at main.go:139-143 and main.go:146-150 give the same reply, so they are one outcome.
- The `DEBUG` switch (main.go:201), debug output and the `fmt.Println` logging on every error path are left out: they write to the console, not to the client.
- The `conn.Write` error at the end (main.go:194-197) is left out, because it only logs.
- Handler.ToResponse: the body for the base64 error omits the byte offset Go appends ("at input byte N"), because `Base64.Decode` proves that branch unreachable.
- Base64.Decode: Go's decoder also skips `\r` and `\n` inside its input, so it decodes strings such as `YWJj` followed by a newline. `Decode` rejects those. The base64 pattern never lets such a string reach the decoder, so the handler's behaviour is unchanged.
- PercentCoding.QuoteBody: only ASCII bytes are quoted the way `strconv.Quote` does it. A fragment of a bad escape that holds a multi-byte UTF-8 rune would be printed by Go as that rune (or `\u` escapes). Here every non-ASCII byte becomes a `\x` escape.
- PercentCoding.QueryUnescape: only the query-component mode of `url.QueryUnescape` is modelled. The handler uses no other mode.
- Handler.Decide: a renderer is a function of its flag and its input, so two runs on the same input give the same result. A real `dot` run could also depend on the machine it runs on.

=== FILE: base64.dfy ===
/** Base64 with the standard alphabet and `=` padding (section 4 of RFC
    4648): the pattern `^([A-Za-z0-9+/]{4})*([A-Za-z0-9+/]{3}=|[A-Za-z0-9+/]{2}==)?$`
    the gateway uses to recognise base64 queries, and the decoder of Go's
    `base64.StdEncoding`, which does not insist that unused bits of the last
    character are zero. */
module Base64 {
  import opened Bytes

  /** A character of `[A-Za-z0-9+/]`. */
  predicate IsAlphabet(c: byte)
  {
    'A' <= c <= 'Z' || 'a' <= c <= 'z' || '0' <= c <= '9' || c == '+' || c == '/'
  }

  /** The 6-bit value of an alphabet character. */
  function ValueOf(c: byte): (v: nat)
    requires IsAlphabet(c)
    ensures v < 64
  {
    if 'A' <= c <= 'Z' then c as int - 'A' as int
    else if 'a' <= c <= 'z' then c as int - 'a' as int + 26
    else if '0' <= c <= '9' then c as int - '0' as int + 52
    else if c == '+' then 62
    else 63
  }

  /** The alphabet character for a 6-bit value. */
  function CharOf(v: nat): (c: byte)
    requires v < 64
    ensures IsAlphabet(c) && ValueOf(c) == v
  {
    if v < 26 then (v + 'A' as int) as char
    else if v < 52 then (v - 26 + 'a' as int) as char
    else if v < 62 then (v - 52 + '0' as int) as char
    else if v == 62 then '+'
    else '/'
  }

  /** `[A-Za-z0-9+/]{4}`. */
  predicate IsFullGroup(g: bytes)
  {
    |g| == 4 && IsAlphabet(g[0]) && IsAlphabet(g[1]) && IsAlphabet(g[2]) && IsAlphabet(g[3])
  }

  /** `[A-Za-z0-9+/]{3}=|[A-Za-z0-9+/]{2}==`. */
  predicate IsPaddedGroup(g: bytes)
  {
    && |g| == 4 && IsAlphabet(g[0]) && IsAlphabet(g[1]) && g[3] == '='
    && (IsAlphabet(g[2]) || g[2] == '=')
  }

  /** The strings the pattern matches as a whole: any number of full groups,
      then at most one padded group, then the end of the string. */
  predicate MatchesPattern(s: bytes): (r: bool)
    ensures r ==> |s| % 4 == 0
    ensures r ==> forall i :: 0 <= i < |s| ==> IsAlphabet(s[i]) || s[i] == '='
    decreases |s|
  {
    || |s| == 0
    || (|s| == 4 && IsPaddedGroup(s))
    || (|s| >= 4 && IsFullGroup(s[..4]) && MatchesPattern(s[4..]))
  }

  /** `=` at index `i` is trailing padding: the last byte, or the last but
      one when the last is `=` too. */
  predicate PaddingAt(s: bytes, i: int)
    requires 0 <= i < |s|
  {
    s[i] == '=' && (i == |s| - 1 || (i == |s| - 2 && s[|s| - 1] == '='))
  }

  /** The pattern read off character by character: a length that is a
      multiple of four, only alphabet characters, and `=` only as one or two
      trailing padding characters. */
  ghost predicate Base64Shape(s: bytes)
  {
    |s| % 4 == 0 && forall i :: 0 <= i < |s| ==> IsAlphabet(s[i]) || PaddingAt(s, i)
  }

  /** The recursive reading of the pattern and the character-by-character
      one accept the same strings. */
  lemma {:induction false} PatternIsShape(s: bytes)
    ensures MatchesPattern(s) <==> Base64Shape(s)
    decreases |s|
  {
    if |s| >= 4 {
      var t := s[4..];
      PatternIsShape(t);
      forall i | 4 <= i < |s|
        ensures (IsAlphabet(s[i]) || PaddingAt(s, i)) <==> (IsAlphabet(t[i - 4]) || PaddingAt(t, i - 4))
      {
        assert t[i - 4] == s[i];
        assert |s| - 1 == |t| - 1 + 4;
        if |t| >= 1 {
          assert t[|t| - 1] == s[|s| - 1];
        }
      }
      if Base64Shape(s) && |s| > 4 {
        assert IsFullGroup(s[..4]) by {
          assert !PaddingAt(s, 0) && !PaddingAt(s, 1) && !PaddingAt(s, 2) && !PaddingAt(s, 3);
        }
        assert Base64Shape(t);
      }
      if Base64Shape(s) && |s| == 4 && !IsPaddedGroup(s) {
        assert IsFullGroup(s[..4]) by {
          assert !PaddingAt(s, 0) && !PaddingAt(s, 1);
          assert s[3] != '=';
          assert !PaddingAt(s, 2) && !PaddingAt(s, 3);
        }
        assert t == [];
      }
    } else if 0 < |s| {
      assert |s| % 4 != 0;
    }
  }

  /** Any byte that is neither in the alphabet nor `=` (a space, `{`, `-`,
      `;`, `>`) keeps a string from matching. */
  lemma ForeignByteBlocksPattern(s: bytes, i: int)
    requires 0 <= i < |s| && !IsAlphabet(s[i]) && s[i] != '='
    ensures !MatchesPattern(s)
  {
    PatternIsShape(s);
  }

  /** Three bytes from four 6-bit values. */
  function DecodeFull(g: bytes): (r: bytes)
    requires IsFullGroup(g)
    ensures |r| == 3
  {
    var a, b, c, d := ValueOf(g[0]), ValueOf(g[1]), ValueOf(g[2]), ValueOf(g[3]);
    [(a * 4 + b / 16) as char, ((b % 16) * 16 + c / 4) as char, ((c % 4) * 64 + d) as char]
  }

  /** One or two bytes from a padded group; bits left over in the last
      character are dropped. */
  function DecodePadded(g: bytes): (r: bytes)
    requires IsPaddedGroup(g)
    ensures 1 <= |r| <= 2
  {
    var a, b := ValueOf(g[0]), ValueOf(g[1]);
    if g[2] == '=' then [(a * 4 + b / 16) as char]
    else [(a * 4 + b / 16) as char, ((b % 16) * 16 + ValueOf(g[2]) / 4) as char]
  }

  /** `base64.StdEncoding.DecodeString(s)` on the strings the base64 pattern
      accepts, the only strings the gateway decodes: the decoded bytes, or
      `None` when the string is not made of whole groups with padding only
      at the end. Go's decoder would also skip line ends; no string the
      pattern accepts holds one. */
  function Decode(s: bytes): (r: Option<bytes>)
    ensures r.Some? <==> MatchesPattern(s)
    ensures r.Some? ==> |r.value| <= |s| / 4 * 3
    decreases |s|
  {
    if |s| == 0 then Some([])
    else if |s| == 4 && IsPaddedGroup(s) then Some(DecodePadded(s))
    else if |s| >= 4 && IsFullGroup(s[..4]) then
      match Decode(s[4..])
      case None => None
      case Some(t) => Some(DecodeFull(s[..4]) + t)
    else None
  }

  /** The standard encoding with padding: each three bytes become four
      characters, and a final one or two bytes become a padded group. */
  function Encode(b: bytes): (r: bytes)
    ensures |r| == (|b| + 2) / 3 * 4
    decreases |b|
  {
    if |b| == 0 then []
    else if |b| == 1 then
      var x := b[0] as int;
      [CharOf(x / 4), CharOf((x % 4) * 16), '=', '=']
    else if |b| == 2 then
      var x, y := b[0] as int, b[1] as int;
      [CharOf(x / 4), CharOf((x % 4) * 16 + y / 16), CharOf((y % 16) * 4), '=']
    else
      var x, y, z := b[0] as int, b[1] as int, b[2] as int;
      var rest := Encode(b[3..]);
      assert (|b| + 2) / 3 == (|b| - 1) / 3 + 1;
      [CharOf(x / 4), CharOf((x % 4) * 16 + y / 16), CharOf((y % 16) * 4 + z / 64), CharOf(z % 64)] + rest
  }

  /** An encoding uses only alphabet characters and `=`. */
  lemma {:induction false} EncodeAlphabet(b: bytes)
    ensures forall i :: 0 <= i < |Encode(b)| ==> IsAlphabet(Encode(b)[i]) || Encode(b)[i] == '='
    decreases |b|
  {
    if |b| >= 3 {
      EncodeAlphabet(b[3..]);
      var e := Encode(b);
      assert e[4..] == Encode(b[3..]);
      forall i | 4 <= i < |e| ensures IsAlphabet(e[i]) || e[i] == '=' {
        assert e[i] == Encode(b[3..])[i - 4];
      }
    }
  }

  lemma DivModUnique(q: int, r: int, k: int)
    requires k == 4 || k == 16
    requires 0 <= q && 0 <= r < k
    ensures (q * k + r) / k == q && (q * k + r) % k == r
  {
    if k == 4 {
      assert (q * 4 + r) / 4 == q;
    } else {
      assert (q * 16 + r) / 16 == q;
    }
  }

  /** One full group decodes to the three bytes it encodes. */
  lemma DecodeFullGroup(x: int, y: int, z: int)
    requires 0 <= x < 256 && 0 <= y < 256 && 0 <= z < 256
    ensures DecodeFull([CharOf(x / 4), CharOf((x % 4) * 16 + y / 16), CharOf((y % 16) * 4 + z / 64), CharOf(z % 64)])
      == [x as char, y as char, z as char]
  {
    DivModUnique(x % 4, y / 16, 16);
    DivModUnique(y % 16, z / 64, 4);
  }

  /** A padded group decodes to the one or two bytes it encodes. */
  lemma DecodePaddedGroup(x: int, y: int)
    requires 0 <= x < 256 && 0 <= y < 256
    ensures DecodePadded([CharOf(x / 4), CharOf((x % 4) * 16), '=', '=']) == [x as char]
    ensures DecodePadded([CharOf(x / 4), CharOf((x % 4) * 16 + y / 16), CharOf((y % 16) * 4), '='])
      == [x as char, y as char]
  {
    DivModUnique(x % 4, 0, 16);
    DivModUnique(x % 4, y / 16, 16);
    DivModUnique(y % 16, 0, 4);
  }

  /** Decoding undoes encoding. */
  lemma {:induction false} DecodeEncode(b: bytes)
    ensures Decode(Encode(b)) == Some(b)
    decreases |b|
  {
    if |b| == 1 {
      DecodePaddedGroup(b[0] as int, 0);
      assert b == [b[0]];
    } else if |b| == 2 {
      DecodePaddedGroup(b[0] as int, b[1] as int);
      assert b == [b[0], b[1]];
    } else if |b| >= 3 {
      DecodeEncodeGroups(b);
    }
  }

  lemma {:induction false} DecodeEncodeGroups(b: bytes)
    requires |b| >= 3
    ensures Decode(Encode(b)) == Some(b)
    decreases |b|, 0
  {
    var x, y, z := b[0] as int, b[1] as int, b[2] as int;
    var g := [CharOf(x / 4), CharOf((x % 4) * 16 + y / 16), CharOf((y % 16) * 4 + z / 64), CharOf(z % 64)];
    var rest := Encode(b[3..]);
    var e := Encode(b);
    assert e == g + rest;
    assert e[..4] == g && e[4..] == rest;
    assert IsFullGroup(g);
    DecodeFullGroup(x, y, z);
    DecodeEncode(b[3..]);
    assert Decode(e) == Some(DecodeFull(g) + b[3..]);
    assert b == [b[0], b[1], b[2]] + b[3..];
  }

  /** Every encoding matches the pattern, so the gateway recognises it. */
  lemma EncodingMatchesPattern(b: bytes)
    ensures MatchesPattern(Encode(b))
  {
    DecodeEncode(b);
  }
}

=== FILE: bytes.dfy ===
/** Go strings and byte slices as sequences of bytes, the substring test the
    handler uses (`strings.Contains`) and decimal rendering of lengths and
    status codes (`strconv.Itoa`, `fmt`'s `%v` on an int). */
module Bytes {

  /** One byte of a Go string. A character below 256 stands for the byte with
      that value, so ASCII string literals can be written directly. */
  type byte = c: char | c as int < 256

  type bytes = seq<byte>

  datatype Option<+T> = None | Some(value: T)

  datatype Result<+T, +E> = Ok(value: T) | Err(error: E)

  /** `t` occurs in `s` starting at index `i`. */
  predicate OccursAt(s: bytes, t: bytes, i: int)
  {
    0 <= i && i + |t| <= |s| && s[i..i + |t|] == t
  }

  /** `strings.Contains(s, t)`. */
  function Contains(s: bytes, t: bytes): (r: bool)
    ensures r <==> exists i :: OccursAt(s, t, i)
  {
    ContainsFrom(s, t, 0)
  }

  function ContainsFrom(s: bytes, t: bytes, i: nat): (r: bool)
    ensures r <==> exists k :: i <= k && OccursAt(s, t, k)
    decreases |s| - i
  {
    if i + |t| > |s| then false
    else if s[i..i + |t|] == t then assert OccursAt(s, t, i); true
    else ContainsFrom(s, t, i + 1)
  }

  /** An occurrence survives putting bytes in front of and behind the string. */
  lemma OccursInContext(u: bytes, s: bytes, w: bytes, t: bytes, i: int)
    requires OccursAt(s, t, i)
    ensures OccursAt(u + s + w, t, |u| + i)
  {
    assert (u + s + w)[|u| + i..|u| + i + |t|] == s[i..i + |t|];
  }

  /** The first byte of an occurrence is a byte of the string. */
  lemma OccurrenceStartsWith(s: bytes, t: bytes, i: int)
    requires OccursAt(s, t, i) && |t| > 0
    ensures t[0] in s
  {
    assert s[i] == s[i..i + |t|][0];
  }

  predicate IsDigit(c: byte)
  {
    '0' <= c <= '9'
  }

  predicate AllDigits(s: bytes)
  {
    forall i :: 0 <= i < |s| ==> IsDigit(s[i])
  }

  function DigitChar(d: nat): (c: byte)
    requires d < 10
    ensures IsDigit(c) && c as int - '0' as int == d
  {
    (d + '0' as int) as char
  }

  /** The decimal form of `n` without sign or leading zeros, as `strconv.Itoa`
      and `%v` print a non-negative int. */
  function Decimal(n: nat): (r: bytes)
    ensures 1 <= |r| && AllDigits(r)
    ensures |r| > 1 ==> r[0] != '0'
    decreases n
  {
    if n < 10 then [DigitChar(n)] else Decimal(n / 10) + [DigitChar(n % 10)]
  }

  /** The number a string of decimal digits denotes: how a client reads a
      Content-Length value. */
  function DigitsValue(s: bytes): (n: nat)
    requires AllDigits(s)
  {
    if |s| == 0 then 0
    else DigitsValue(s[..|s| - 1]) * 10 + (s[|s| - 1] as int - '0' as int)
  }

  /** Reading the decimal form back gives the number printed. */
  lemma {:induction false} DecimalRoundTrip(n: nat)
    ensures DigitsValue(Decimal(n)) == n
    decreases n
  {
    if n >= 10 {
      DecimalRoundTrip(n / 10);
      var d := Decimal(n);
      assert d[..|d| - 1] == Decimal(n / 10);
    }
  }
}

=== FILE: formats.dfy ===
/** The output formats the gateway accepts: the path token a client asks
    for, the flag handed to the renderer and the Content-Type of the reply. */
module Formats {
  import opened Bytes

  datatype Format = Svg | Png | Webp | Pdf | Plain

  /** The path token that selects the format. */
  function Token(f: Format): (t: bytes)
    ensures |t| >= 1 && '?' !in t && '\n' !in t && ' ' !in t
  {
    match f
    case Svg => "svg"
    case Png => "png"
    case Webp => "webp"
    case Pdf => "pdf"
    case Plain => "plain"
  }

  /** The Content-Type of a successful reply in this format. */
  function ContentType(f: Format): (ct: bytes)
    ensures '\r' !in ct
  {
    match f
    case Svg => "image/svg+xml; charset=utf-8"
    case Png => "image/png"
    case Webp => "image/webp"
    case Pdf => "application/pdf"
    case Plain => "text/plain"
  }

  /** The renderer's command-line flag: `-T` followed by the path token the
      client wrote, whichever token selected this format. */
  function RendererFlag(f: Format): (flag: bytes)
    ensures forall token :: Resolve(token) == Some(f) ==> flag == "-T" + token
  {
    "-T" + Token(f)
  }

  /** The format switch: a token names a format exactly when it is that
      format's token; every other token is rejected. */
  function Resolve(token: bytes): (r: Option<Format>)
    ensures r.Some? ==> Token(r.value) == token
    ensures r.None? ==> forall f: Format :: Token(f) != token
  {
    if token == "svg" then Some(Svg)
    else if token == "png" then Some(Png)
    else if token == "webp" then Some(Webp)
    else if token == "pdf" then Some(Pdf)
    else if token == "plain" then Some(Plain)
    else None
  }

  /** Resolving a format's own token gives that format back. */
  lemma ResolveToken(f: Format)
    ensures Resolve(Token(f)) == Some(f)
  {
  }
}

=== FILE: handler.dfy ===
/** One request through the gateway, from the first line of the request to
    the bytes of the reply: the probe check, the request-line pattern, the
    format switch, the staged payload decoding, the renderer run and the
    reply for each way this can end. The renderer (`dot -T<format>`) and the
    gzip inflater are parameters. */
module Handler {
  import opened Bytes
  import RequestLine
  import Formats
  import PercentCoding
  import Base64
  import Payload
  import opened HttpResponse

  /** How the renderer process ended: exit status 0 with its standard
      output, or an error with what it wrote to standard error and standard
      output. */
  datatype RenderResult =
    | Rendered(stdout: bytes)
    | RenderFailed(error: bytes, stderr: bytes, stdout: bytes)

  /** The renderer, given its command-line flag and its standard input. */
  type Renderer = (bytes, bytes) -> RenderResult

  /** The ways a request can end. */
  datatype Outcome =
    | ReservedPath
    | MalformedRequestLine
    | UnknownFormat(token: bytes)
    | EmptyQuery
    | DecodeFailed(cause: Payload.DecodeError)
    | RendererFailed(error: bytes, stderr: bytes, stdout: bytes, payload: bytes)
    | Success(format: Formats.Format, output: bytes)

  /** Browser probes the gateway answers with 404 wherever they appear in
      the line. */
  const FaviconProbe: bytes := "GET /favicon.ico"
  const RobotsProbe: bytes := "GET /robots.txt"

  predicate IsProbe(line: bytes): (r: bool)
    ensures r <==> (exists i :: OccursAt(line, FaviconProbe, i)) || (exists i :: OccursAt(line, RobotsProbe, i))
  {
    Contains(line, FaviconProbe) || Contains(line, RobotsProbe)
  }

  /** Everything before the renderer runs: either the outcome that stops the
      request early, or the format and the decoded payload to render. */
  function Prepare(line: bytes, inflate: Payload.Inflater): (r: Result<(Formats.Format, bytes), Outcome>)
    ensures r.Err? ==> !r.error.Success? && !r.error.RendererFailed? && r.error != EmptyQuery && r.error != DecodeFailed(Payload.BadBase64)
    ensures IsProbe(line) <==> r == Err(ReservedPath)
  {
    if IsProbe(line) then Err(ReservedPath)
    else
      match RequestLine.ParseRequestLine(line)
      case None => Err(MalformedRequestLine)
      case Some(request) =>
        match Formats.Resolve(request.format)
        case None => Err(UnknownFormat(request.format))
        case Some(format) =>
          if |request.query| == 0 then Err(EmptyQuery)
          else
            match Payload.DecodeQuery(request.query, inflate)
            case Err(e) => Err(DecodeFailed(e))
            case Ok(payload) => Ok((format, payload))
  }

  /** The outcome of running the renderer on a payload. */
  function RenderOutcome(format: Formats.Format, payload: bytes, result: RenderResult): (o: Outcome)
  {
    match result
    case Rendered(stdout) => Success(format, stdout)
    case RenderFailed(error, stderr, stdout) => RendererFailed(error, stderr, stdout, payload)
  }

  /** The decision part of `handleRequest`. */
  function Decide(line: bytes, render: Renderer, inflate: Payload.Inflater): (o: Outcome)
    ensures o != EmptyQuery && o != DecodeFailed(Payload.BadBase64)
    ensures IsProbe(line) <==> o == ReservedPath
  {
    match Prepare(line, inflate)
    case Err(early) => early
    case Ok((format, payload)) => RenderOutcome(format, payload, render(Formats.RendererFlag(format), payload))
  }

  /** Four newlines: the separator between the parts of a 500 body. */
  const Separator: bytes := "\n\n\n\n"

  const PlainText: bytes := "text/plain"

  /** Every error body starts with this. Longer messages are built from
      pieces, because the verifier does not prove that a string literal of
      more than about fifty characters belongs to the `byte` subset type. */
  const ErrorPrefix: bytes := "Error: "

  const NotFoundMessage: bytes := ErrorPrefix + "file not found"
  const NoMatchMessage: bytes := ErrorPrefix + "Failed match pattern on full path"
  const NoQueryHint: bytes := "(the part after the questionmark)"
  const NoQueryMessage: bytes := ErrorPrefix + "No query specified " + NoQueryHint
  const UnknownFormatPrefix: bytes := ErrorPrefix + "Unknown format specified: '"
  const BadEscapePrefix: bytes := ErrorPrefix + "Failed to decode query: "
  const BadBase64Prefix: bytes := ErrorPrefix + "Failed to decode base64: "
  /** The text of Go's base64 `CorruptInputError`, without its byte offset. */
  const CorruptInputText: bytes := "illegal base64 data"
  const BadGzipPrefix: bytes := ErrorPrefix + "Failed to inflate gzip: "

  /** The body of the reply to a payload the decoder rejects. */
  function DecodeErrorBody(e: Payload.DecodeError): (body: bytes)
    ensures |body| > |ErrorPrefix| && body[..|ErrorPrefix|] == ErrorPrefix
    ensures e.BadGzip? ==> body == BadGzipPrefix + e.message
    ensures e.BadEscape? ==> |body| > |BadEscapePrefix| && body[..|BadEscapePrefix|] == BadEscapePrefix && body[|body| - 1] == '"'
  {
    match e
    case BadEscape(fragment) => BadEscapePrefix + PercentCoding.EscapeErrorText(fragment)
    case BadBase64 => BadBase64Prefix + CorruptInputText
    case BadGzip(message) => BadGzipPrefix + message
  }

  /** The body of the reply to a failed renderer run. */
  function FailureBody(error: bytes, stderr: bytes, stdout: bytes, payload: bytes): (body: bytes)
    ensures |body| == |ErrorPrefix| + |error| + |stderr| + |stdout| + |payload| + 4 * |Separator|
    ensures body[..7] == ErrorPrefix && body[7..7 + |error|] == error
    ensures body[|body| - |payload| - 4..|body| - 4] == payload && body[|body| - 4..] == Separator
  {
    ErrorPrefix + error + Separator + stderr + Separator + stdout + Separator + payload + Separator
  }

  /** The reply for each outcome. Only a rendered graph is a 200 and only a
      failed renderer run a 500; the browser probes get 404 and every
      rejected request a 400. Every reply other than a 200 is plain text,
      and a 500 carries the payload exactly as the renderer received it. */
  function ToResponse(o: Outcome): (r: Response)
    ensures r.status == OK <==> o.Success?
    ensures r.status == InternalServerError <==> o.RendererFailed?
    ensures r.status == NotFound <==> o.ReservedPath?
    ensures o.Success? ==> r.contentType == Formats.ContentType(o.format) && r.body == o.output
    ensures !o.Success? ==> r.contentType == PlainText
    ensures o.RendererFailed? ==>
      && |r.body| >= 7 && r.body[..7] == ErrorPrefix && OccursAt(r.body, o.error, 7)
      && OccursAt(r.body, o.payload, |r.body| - |o.payload| - 4)
      && r.body[|r.body| - 4..] == Separator
    ensures '\r' !in r.contentType
  {
    match o
    case ReservedPath => Response(NotFound, PlainText, NotFoundMessage)
    case MalformedRequestLine => Response(BadRequest, PlainText, NoMatchMessage)
    case UnknownFormat(token) => Response(BadRequest, PlainText, UnknownFormatPrefix + token + "'")
    case EmptyQuery => Response(BadRequest, PlainText, NoQueryMessage)
    case DecodeFailed(cause) => Response(BadRequest, PlainText, DecodeErrorBody(cause))
    case RendererFailed(error, stderr, stdout, payload) =>
      var body := FailureBody(error, stderr, stdout, payload);
      assert body[7..7 + |error|] == error;
      assert body[|body| - |payload| - 4..|body| - 4] == payload;
      Response(InternalServerError, PlainText, body)
    case Success(format, output) => Response(OK, Formats.ContentType(format), output)
  }

  /** `handleRequest` from the first line of the request to the bytes
      written back. A client reading the reply finds the status line and
      header fields of the outcome's response and, after the blank line,
      exactly its body. */
  function HandleRequest(line: bytes, render: Renderer, inflate: Payload.Inflater): (reply: bytes)
    ensures var response := ToResponse(Decide(line, render, inflate));
      ReadHead(reply) == Some((HeadLines(response), response.body))
  {
    var response := ToResponse(Decide(line, render, inflate));
    Framing(response);
    Serialize(response)
  }

  /** A browser probe anywhere in the line is answered with 404 before
      anything else is looked at: neither the renderer nor the inflater is
      consulted. */
  lemma ProbeAnswered(line: bytes, render: Renderer, inflate: Payload.Inflater)
    requires IsProbe(line)
    ensures ToResponse(Decide(line, render, inflate)) == Response(NotFound, PlainText, NotFoundMessage)
  {
  }

  /** The renderer runs only once the request has been accepted and its
      payload decoded: a request stopped earlier ends the same way whatever
      the renderer would do. */
  lemma RenderOnlyAfterDecoding(line: bytes, render1: Renderer, render2: Renderer, inflate: Payload.Inflater)
    requires Prepare(line, inflate).Err?
    ensures Decide(line, render1, inflate) == Decide(line, render2, inflate)
    ensures ToResponse(Decide(line, render1, inflate)).status in {BadRequest, NotFound}
  {
  }

  /** A line the request-line pattern does not match is a 400 naming the
      failed match. */
  lemma NonMatchingLineRejected(line: bytes, render: Renderer, inflate: Payload.Inflater)
    requires !IsProbe(line)
    requires forall p, m :: !RequestLine.MatchAt(line, p, m)
    ensures ToResponse(Decide(line, render, inflate)) == Response(BadRequest, PlainText, NoMatchMessage)
  {
    RequestLine.ParseRejectsExactlyNonMatches(line);
  }

  /** A format token outside the five known ones is a 400 that quotes the
      token back. */
  lemma UnknownFormatRejected(line: bytes, render: Renderer, inflate: Payload.Inflater)
    requires !IsProbe(line)
    requires RequestLine.ParseRequestLine(line).Some?
    requires forall f: Formats.Format :: Formats.Token(f) != RequestLine.ParseRequestLine(line).value.format
    ensures var token := RequestLine.ParseRequestLine(line).value.format;
      ToResponse(Decide(line, render, inflate)) == Response(BadRequest, PlainText, UnknownFormatPrefix + token + "'")
  {
  }

  /** A query holding `%20` and a `%` without two hex digits after it is a
      400 that names the fragment starting at the first such `%`, in Go's
      quoted form. */
  lemma BadEscapeRejected(line: bytes, render: Renderer, inflate: Payload.Inflater, i: int)
    requires !IsProbe(line)
    requires RequestLine.ParseRequestLine(line).Some?
    requires Formats.Resolve(RequestLine.ParseRequestLine(line).value.format).Some?
    requires Contains(RequestLine.ParseRequestLine(line).value.query, Payload.EncodedSpace)
    requires PercentCoding.FirstBadEscapeAt(RequestLine.ParseRequestLine(line).value.query, i)
    ensures var fragment := PercentCoding.Fragment(RequestLine.ParseRequestLine(line).value.query, i);
      ToResponse(Decide(line, render, inflate))
        == Response(BadRequest, PlainText, BadEscapePrefix + PercentCoding.EscapeErrorText(fragment))
  {
    var query := RequestLine.ParseRequestLine(line).value.query;
    PercentCoding.UnescapeSucceedsIffWellEscaped(query);
    PercentCoding.UnescapeReportsFirstBadEscape(query);
    var j :| PercentCoding.FirstBadEscapeAt(query, j)
      && PercentCoding.QueryUnescape(query).error == PercentCoding.Fragment(query, j);
    assert j == i;
  }

  /** An accepted request whose renderer run succeeds is a 200 with the
      format's Content-Type and the renderer's output as the body; the
      renderer is run with `-T<format>` on the decoded payload. */
  lemma RenderedReply(line: bytes, render: Renderer, inflate: Payload.Inflater)
    requires Prepare(line, inflate).Ok?
    ensures var (format, payload) := Prepare(line, inflate).value;
      match render(Formats.RendererFlag(format), payload)
      case Rendered(out) =>
        ToResponse(Decide(line, render, inflate)) == Response(OK, Formats.ContentType(format), out)
      case RenderFailed(error, stderr, stdout) =>
        ToResponse(Decide(line, render, inflate))
          == Response(InternalServerError, PlainText, FailureBody(error, stderr, stdout, payload))
  {
  }

  /** A line a client builds from a format token and a query, neither
      holding a space, contains no string of 13 or more bytes with ` /` at
      its fourth and fifth bytes and a sixth byte other than the format's
      first: such a string needs a space at its fourth byte, and the only
      space early enough in the line is the one after `GET`, where the format
      token follows the slash. */
  lemma NoProbeInBuiltLine(format: bytes, query: bytes, minor: byte, probe: bytes)
    requires |format| >= 1 && ' ' !in format && ' ' !in query
    requires |probe| >= 13 && probe[3] == ' ' && probe[4] == '/' && probe[5] != format[0]
    ensures !Contains(RequestLine.BuildRequestLine(format, query, minor), probe)
  {
  }

  /** Neither probe occurs in a request line built for a known format and a
      query without spaces. */
  lemma NoProbeForFormat(f: Formats.Format, query: bytes, minor: byte)
    requires ' ' !in query
    ensures !IsProbe(RequestLine.BuildRequestLine(Formats.Token(f), query, minor))
  {
    var token := Formats.Token(f);
    assert token[0] != FaviconProbe[5] && token[0] != RobotsProbe[5];
    NoProbeInBuiltLine(token, query, minor, FaviconProbe);
    NoProbeInBuiltLine(token, query, minor, RobotsProbe);
  }

  /** A request line a client builds for a known format, with a query that
      holds no space or newline, passes the probe check, the pattern and the
      format switch, and its query goes to the decoder unchanged. */
  lemma BuiltLineDecoded(f: Formats.Format, query: bytes, minor: byte, inflate: Payload.Inflater)
    requires |query| >= 1 && ' ' !in query && '\n' !in query && minor != '\n'
    ensures Prepare(RequestLine.BuildRequestLine(Formats.Token(f), query, minor), inflate) ==
      match Payload.DecodeQuery(query, inflate)
      case Ok(payload) => Ok((f, payload))
      case Err(e) => Err(DecodeFailed(e))
  {
    var line := RequestLine.BuildRequestLine(Formats.Token(f), query, minor);
    RequestLine.ParseBuiltLine(Formats.Token(f), query, minor);
    NoProbeForFormat(f, query, minor);
    Formats.ResolveToken(f);
  }

  /** Base64 output holds no space and no newline. */
  lemma EncodingFitsRequestLine(b: bytes)
    ensures ' ' !in Base64.Encode(b) && '\n' !in Base64.Encode(b)
  {
    Base64.EncodeAlphabet(b);
  }

  /** End to end: a client that base64-encodes a graph description (one that
      does not start with the gzip magic) gets it rendered as sent, in the
      format it named, whatever the inflater would do. */
  lemma Base64RequestRendered(f: Formats.Format, graph: bytes, minor: byte, render: Renderer, inflate: Payload.Inflater)
    requires |graph| >= 1 && !Payload.HasGzipMagic(graph) && minor != '\n'
    ensures var line := RequestLine.BuildRequestLine(Formats.Token(f), Base64.Encode(graph), minor);
      && Prepare(line, inflate) == Ok((f, graph))
      && Decide(line, render, inflate) == RenderOutcome(f, graph, render(Formats.RendererFlag(f), graph))
  {
    EncodingFitsRequestLine(graph);
    Payload.Base64RoundTrip(graph, inflate);
    BuiltLineDecoded(f, Base64.Encode(graph), minor, inflate);
  }

  /** End to end: a client that base64-encodes a gzip stream gets what the
      inflater makes of it rendered, or a 400 carrying the inflater's
      message. */
  lemma GzipRequestRendered(f: Formats.Format, stream: bytes, minor: byte, render: Renderer, inflate: Payload.Inflater)
    requires Payload.HasGzipMagic(stream) && minor != '\n'
    ensures var line := RequestLine.BuildRequestLine(Formats.Token(f), Base64.Encode(stream), minor);
      match inflate(stream)
      case Inflated(graph) =>
        Decide(line, render, inflate) == RenderOutcome(f, graph, render(Formats.RendererFlag(f), graph))
      case InflateFailed(message) =>
        ToResponse(Decide(line, render, inflate)) == Response(BadRequest, PlainText, BadGzipPrefix + message)
  {
    EncodingFitsRequestLine(stream);
    Payload.GzipRoundTrip(stream, inflate);
    BuiltLineDecoded(f, Base64.Encode(stream), minor, inflate);
  }

  /** End to end: a client that percent-encodes a graph description with a
      space in it gets it rendered as sent. */
  lemma PercentRequestRendered(f: Formats.Format, graph: bytes, lower: bool, minor: byte, render: Renderer, inflate: Payload.Inflater)
    requires ' ' in graph && minor != '\n'
    ensures var line := RequestLine.BuildRequestLine(Formats.Token(f), PercentCoding.Escape(graph, lower), minor);
      && Prepare(line, inflate) == Ok((f, graph))
      && Decide(line, render, inflate) == RenderOutcome(f, graph, render(Formats.RendererFlag(f), graph))
  {
    var query := PercentCoding.Escape(graph, lower);
    PercentCoding.EscapeMarksSpaces(graph, lower);
    assert |query| >= 1 by {
      var i :| OccursAt(query, Payload.EncodedSpace, i);
    }
    Payload.PercentRoundTrip(graph, lower, inflate);
    BuiltLineDecoded(f, query, minor, inflate);
  }
}

=== FILE: http_response.dfy ===
/** The HTTP/1.1 reply the gateway writes back: a status line, a fixed set
    of header fields, a blank line and the body, byte for byte as
    `newHttpResponse` assembles them. */
module HttpResponse {
  import opened Bytes

  datatype Status = OK | BadRequest | NotFound | InternalServerError

  function Code(s: Status): (code: nat)
  {
    match s
    case OK => 200
    case BadRequest => 400
    case NotFound => 404
    case InternalServerError => 500
  }

  datatype Response = Response(status: Status, contentType: bytes, body: bytes)

  const CRLF: bytes := "\r\n"

  const StatusPrefix: bytes := "HTTP/1.1 "
  const ServerField: bytes := "Server: get-graphviz/1.0"
  const ContentTypePrefix: bytes := "Content-Type: "
  const ContentLengthPrefix: bytes := "Content-Length: "
  const ConnectionField: bytes := "Connection: close"
  const AllowOriginField: bytes := "Access-Control-Allow-Origin: *"
  const AllowMethodsField: bytes := "Access-Control-Allow-Methods: GET"
  const AllowHeadersField: bytes := "Access-Control-Allow-Headers: Content-Type"
  const NoSniffField: bytes := "X-Content-Type-Options: nosniff"

  /** The reply's lines before the blank line, without their line ends:
      the status line, then the same header fields for every status, only
      Content-Type and Content-Length depending on the reply. */
  function HeadLines(r: Response): (lines: seq<bytes>)
  {
    [ StatusPrefix + Decimal(Code(r.status)),
      ServerField,
      ContentTypePrefix + r.contentType,
      ContentLengthPrefix + Decimal(|r.body|),
      ConnectionField,
      AllowOriginField,
      AllowMethodsField,
      AllowHeadersField,
      NoSniffField ]
  }

  /** Lines, each followed by CRLF. */
  function JoinLines(lines: seq<bytes>): (joined: bytes)
  {
    if |lines| == 0 then [] else JoinLines(lines[..|lines| - 1]) + lines[|lines| - 1] + CRLF
  }

  /** The same join, read from the first line. */
  lemma {:induction false} JoinLinesFront(lines: seq<bytes>)
    requires |lines| > 0
    ensures JoinLines(lines) == lines[0] + CRLF + JoinLines(lines[1..])
  {
    if |lines| > 1 {
      var init := lines[..|lines| - 1];
      JoinLinesFront(init);
      assert init[1..] == lines[1..][..|lines[1..]| - 1];
    }
  }

  /** `newHttpResponse(status, contentType, body)`: the buffer written in
      the order the source writes it. The body is carried over unchanged as
      the reply's last bytes. */
  function Serialize(r: Response): (out: bytes)
    ensures |out| > |r.body| && out[|out| - |r.body|..] == r.body
  {
    var head :=
      StatusPrefix + Decimal(Code(r.status)) + CRLF
      + ServerField + CRLF
      + ContentTypePrefix + r.contentType + CRLF
      + ContentLengthPrefix + Decimal(|r.body|) + CRLF
      + ConnectionField + CRLF
      + AllowOriginField + CRLF
      + AllowMethodsField + CRLF
      + AllowHeadersField + CRLF
      + NoSniffField + CRLF
      + CRLF;
    assert (head + r.body)[|head|..] == r.body;
    head + r.body
  }

  /** A line end starts at `j`. */
  predicate LineEndAt(s: bytes, j: int)
  {
    0 <= j && j + 1 < |s| && s[j] == '\r' && s[j + 1] == '\n'
  }

  /** The first line end at or after `i`. */
  function FirstLineEnd(s: bytes, i: nat): (r: Option<nat>)
    ensures r.Some? ==> i <= r.value && LineEndAt(s, r.value)
    ensures r.Some? ==> forall k :: i <= k < r.value ==> !LineEndAt(s, k)
    ensures r.None? ==> forall k :: i <= k ==> !LineEndAt(s, k)
    decreases |s| - i
  {
    if i + 1 >= |s| then None
    else if s[i] == '\r' && s[i + 1] == '\n' then Some(i)
    else FirstLineEnd(s, i + 1)
  }

  /** How a client reads a reply: lines up to the first empty one, then
      everything after that empty line as the body. */
  function ReadHead(s: bytes): (r: Option<(seq<bytes>, bytes)>)
    decreases |s|
  {
    match FirstLineEnd(s, 0)
    case None => None
    case Some(j) =>
      if j == 0 then Some(([], s[2..]))
      else
        match ReadHead(s[j + 2..])
        case None => None
        case Some((lines, body)) => Some(([s[..j]] + lines, body))
  }

  /** A header line can be framed: it is not empty and has no carriage return. */
  predicate FramableLine(line: bytes)
  {
    |line| > 0 && '\r' !in line
  }

  /** Lines without carriage returns, each ended by CRLF, then an empty line:
      a client reads back exactly those lines, and the rest as the body. */
  lemma {:induction false} ReadHeadJoinLines(lines: seq<bytes>, body: bytes)
    requires forall i :: 0 <= i < |lines| ==> FramableLine(lines[i])
    ensures ReadHead(JoinLines(lines) + CRLF + body) == Some((lines, body))
  {
    var s := JoinLines(lines) + CRLF + body;
    if |lines| == 0 {
      assert LineEndAt(s, 0);
      assert s[2..] == body;
    } else {
      var line := lines[0];
      var rest := JoinLines(lines[1..]) + CRLF + body;
      JoinLinesFront(lines);
      assert s == line + CRLF + rest;
      assert LineEndAt(s, |line|);
      forall k | 0 <= k < |line| ensures !LineEndAt(s, k) {
        assert s[k] == line[k];
      }
      assert FirstLineEnd(s, 0) == Some(|line|);
      assert s[..|line|] == line;
      assert s[|line| + 2..] == rest;
      ReadHeadJoinLines(lines[1..], body);
      assert [line] + lines[1..] == lines;
    }
  }

  /** The serialised reply is its head lines, a blank line and the body. */
  lemma SerializeIsHeadThenBody(r: Response)
    ensures Serialize(r) == JoinLines(HeadLines(r)) + CRLF + r.body
  {
    var ls := HeadLines(r);
    var j1 := StatusPrefix + Decimal(Code(r.status)) + CRLF;
    assert JoinLines(ls[..1]) == j1 by {
      var none: seq<bytes> := ls[..1][..0];
      assert none == [];
    }
    var j2 := j1 + ServerField + CRLF;
    assert JoinLines(ls[..2]) == j2 by {
      assert ls[..2][..1] == ls[..1];
    }
    var j3 := j2 + ContentTypePrefix + r.contentType + CRLF;
    assert JoinLines(ls[..3]) == j3 by {
      assert ls[..3][..2] == ls[..2];
    }
    var j4 := j3 + ContentLengthPrefix + Decimal(|r.body|) + CRLF;
    assert JoinLines(ls[..4]) == j4 by {
      assert ls[..4][..3] == ls[..3];
    }
    var j5 := j4 + ConnectionField + CRLF;
    assert JoinLines(ls[..5]) == j5 by {
      assert ls[..5][..4] == ls[..4];
    }
    var j6 := j5 + AllowOriginField + CRLF;
    assert JoinLines(ls[..6]) == j6 by {
      assert ls[..6][..5] == ls[..5];
    }
    var j7 := j6 + AllowMethodsField + CRLF;
    assert JoinLines(ls[..7]) == j7 by {
      assert ls[..7][..6] == ls[..6];
    }
    var j8 := j7 + AllowHeadersField + CRLF;
    assert JoinLines(ls[..8]) == j8 by {
      assert ls[..8][..7] == ls[..7];
    }
    var j9 := j8 + NoSniffField + CRLF;
    assert JoinLines(ls) == j9 by {
      assert ls[..|ls| - 1] == ls[..8];
    }
    assert Serialize(r) == j9 + CRLF + r.body;
  }

  /** The framing a client relies on: reading the reply gives back the
      status line, the fixed header fields and the body exactly; the status
      line carries the status code and Content-Length the body's length, in
      decimal. */
  lemma Framing(r: Response)
    requires '\r' !in r.contentType
    ensures ReadHead(Serialize(r)) == Some((HeadLines(r), r.body))
    ensures HeadLines(r)[0][..9] == StatusPrefix && DigitsValue(HeadLines(r)[0][9..]) == Code(r.status)
    ensures HeadLines(r)[3][..16] == ContentLengthPrefix && DigitsValue(HeadLines(r)[3][16..]) == |r.body|
  {
    HeadLinesFramable(r);
    SerializeIsHeadThenBody(r);
    ReadHeadJoinLines(HeadLines(r), r.body);
    HeadDigits(r);
  }

  /** The status line and Content-Length carry their numbers in decimal. */
  lemma HeadDigits(r: Response)
    ensures HeadLines(r)[0][..9] == StatusPrefix && DigitsValue(HeadLines(r)[0][9..]) == Code(r.status)
    ensures HeadLines(r)[3][..16] == ContentLengthPrefix && DigitsValue(HeadLines(r)[3][16..]) == |r.body|
  {
    var ls := HeadLines(r);
    DecimalRoundTrip(Code(r.status));
    DecimalRoundTrip(|r.body|);
    assert ls[0][9..] == Decimal(Code(r.status));
    assert ls[3][16..] == Decimal(|r.body|);
  }

  lemma HeadLinesFramable(r: Response)
    requires '\r' !in r.contentType
    ensures forall i :: 0 <= i < |HeadLines(r)| ==> FramableLine(HeadLines(r)[i])
  {
    var ls := HeadLines(r);
    assert FramableLine(ls[0]) by {
      assert '\r' !in Decimal(Code(r.status));
    }
    assert FramableLine(ls[3]) by {
      assert '\r' !in Decimal(|r.body|);
    }
    FixedFieldsFramable();
  }

  lemma FixedFieldsFramable()
    ensures FramableLine(ServerField) && FramableLine(ConnectionField) && FramableLine(AllowOriginField)
    ensures FramableLine(AllowMethodsField) && FramableLine(AllowHeadersField) && FramableLine(NoSniffField)
  {
    assert FramableLine(ServerField);
    assert FramableLine(ConnectionField);
    assert FramableLine(AllowOriginField);
    assert FramableLine(AllowMethodsField);
    assert FramableLine(AllowHeadersField);
    assert FramableLine(NoSniffField);
  }
}

=== FILE: payload.dfy ===
/** The staged decoding of the raw query into the graph description handed
    to the renderer: percent-decoding, then base64, then gzip, each stage
    gated on recognising its own encoding. The gzip inflater itself
    (DEFLATE, RFC 1951) is a parameter of the model. */
module Payload {
  import opened Bytes
  import PercentCoding
  import Base64

  /** The first three bytes of a gzip member: ID1, ID2 and CM = 8 (deflate),
      section 2.3.1 of RFC 1952. */
  const GzipMagic: bytes := [0x1f as char, 0x8b as char, 0x08 as char]

  /** The gate in front of gzip inflation: more than three bytes, and the
      first three are the gzip magic. */
  predicate HasGzipMagic(b: bytes): (r: bool)
    ensures r <==> |b| > 3 && b[0] as int == 0x1f && b[1] as int == 0x8b && b[2] as int == 0x08
  {
    |b| > 3 && b[..3] == GzipMagic
  }

  /** What `gzip.NewReader` followed by `io.ReadAll` yields. */
  datatype Inflation = Inflated(data: bytes) | InflateFailed(message: bytes)

  type Inflater = bytes -> Inflation

  datatype DecodeError =
    | BadEscape(fragment: bytes)
    | BadBase64
    | BadGzip(message: bytes)

  /** The token whose presence triggers percent-decoding. */
  const EncodedSpace: bytes := "%20"

  /** Stage 1: percent-decode the query, but only if it contains `%20`. */
  function UnescapeStage(query: bytes): (r: Result<bytes, DecodeError>)
    ensures !Contains(query, EncodedSpace) ==> r == Ok(query)
    ensures Contains(query, EncodedSpace) ==> (r.Ok? <==> PercentCoding.WellEscaped(query))
    ensures r.Err? ==> r.error.BadEscape?
  {
    if Contains(query, EncodedSpace) then
      PercentCoding.UnescapeSucceedsIffWellEscaped(query);
      match PercentCoding.QueryUnescape(query)
      case Ok(t) => Ok(t)
      case Err(fragment) => Err(BadEscape(fragment))
    else Ok(query)
  }

  /** Stage 3: inflate the decoded bytes when they carry the gzip magic. */
  function GzipStage(bin: bytes, inflate: Inflater): (r: Result<bytes, DecodeError>)
    ensures !HasGzipMagic(bin) ==> r == Ok(bin)
    ensures HasGzipMagic(bin) ==> (r.Ok? <==> inflate(bin).Inflated?)
    ensures r.Err? ==> r.error.BadGzip?
  {
    if HasGzipMagic(bin) then
      match inflate(bin)
      case Inflated(data) => Ok(data)
      case InflateFailed(message) => Err(BadGzip(message))
    else Ok(bin)
  }

  /** Stage 2: base64-decode a string the base64 pattern accepts and pass
      the result through stage 3; any other string passes unchanged. A
      string the pattern accepts always decodes, so this stage never fails
      with a base64 error. */
  function Base64Stage(s: bytes, inflate: Inflater): (r: Result<bytes, DecodeError>)
    ensures !Base64.MatchesPattern(s) ==> r == Ok(s)
    ensures r != Err(BadBase64)
  {
    if Base64.MatchesPattern(s) then
      match Base64.Decode(s)
      case None => Err(BadBase64)
      case Some(bin) => GzipStage(bin, inflate)
    else Ok(s)
  }

  /** The whole decoder, stages in their fixed order. */
  function DecodeQuery(query: bytes, inflate: Inflater): (r: Result<bytes, DecodeError>)
    ensures r != Err(BadBase64)
  {
    match UnescapeStage(query)
    case Err(e) => Err(e)
    case Ok(s) => Base64Stage(s, inflate)
  }

  /** The query would reach the inflater: after stage 1 it is base64 whose
      decoding carries the gzip magic. */
  ghost predicate ReachesInflater(query: bytes)
  {
    UnescapeStage(query).Ok? && Base64.MatchesPattern(UnescapeStage(query).value)
      && HasGzipMagic(Base64.Decode(UnescapeStage(query).value).value)
  }

  /** The inflater is consulted only for queries that reach it: for any
      other query every inflater gives the same result. */
  lemma InflaterOnlyBehindGate(query: bytes, inflate1: Inflater, inflate2: Inflater)
    requires !ReachesInflater(query)
    ensures DecodeQuery(query, inflate1) == DecodeQuery(query, inflate2)
  {
  }

  /** Plain graph text, with no `%20` and some byte outside the base64
      alphabet and `=`, reaches the renderer exactly as sent. */
  lemma PlainTextUnchanged(query: bytes, i: int, inflate: Inflater)
    requires !Contains(query, EncodedSpace)
    requires 0 <= i < |query| && !Base64.IsAlphabet(query[i]) && query[i] != '='
    ensures DecodeQuery(query, inflate) == Ok(query)
  {
    Base64.ForeignByteBlocksPattern(query, i);
  }

  /** Base64 output never contains `%`, so stage 1 lets it through. */
  lemma EncodingHasNoEncodedSpace(b: bytes)
    ensures !Contains(Base64.Encode(b), EncodedSpace)
  {
    var e := Base64.Encode(b);
    Base64.EncodeAlphabet(b);
    assert '%' !in e;
    if Contains(e, EncodedSpace) {
      var i :| OccursAt(e, EncodedSpace, i);
      OccurrenceStartsWith(e, EncodedSpace, i);
      assert false;
    }
  }

  /** A base64-encoded payload without the gzip magic is decoded back to
      itself, whatever the inflater would do. */
  lemma Base64RoundTrip(b: bytes, inflate: Inflater)
    requires !HasGzipMagic(b)
    ensures DecodeQuery(Base64.Encode(b), inflate) == Ok(b)
  {
    EncodingHasNoEncodedSpace(b);
    Base64.DecodeEncode(b);
  }

  /** A base64-encoded gzip stream decodes to what the inflater makes of it. */
  lemma GzipRoundTrip(g: bytes, inflate: Inflater)
    requires HasGzipMagic(g)
    ensures DecodeQuery(Base64.Encode(g), inflate) ==
      match inflate(g)
      case Inflated(data) => Ok(data)
      case InflateFailed(message) => Err(BadGzip(message))
  {
    EncodingHasNoEncodedSpace(g);
    Base64.DecodeEncode(g);
  }

  /** The three magic bytes alone are not a gzip stream the gateway inflates. */
  lemma BareMagicNotInflated(inflate: Inflater)
    ensures DecodeQuery(Base64.Encode(GzipMagic), inflate) == Ok(GzipMagic)
  {
    Base64RoundTrip(GzipMagic, inflate);
  }

  /** A percent-encoded payload with a space in it is decoded back to itself:
      the space makes stage 1 run, and the space keeps stage 2 from running. */
  lemma PercentRoundTrip(b: bytes, lower: bool, inflate: Inflater)
    requires ' ' in b
    ensures DecodeQuery(PercentCoding.Escape(b, lower), inflate) == Ok(b)
  {
    PercentCoding.EscapeMarksSpaces(b, lower);
    PercentCoding.UnescapeEscape(b, lower);
    var i :| 0 <= i < |b| && b[i] == ' ';
    Base64.ForeignByteBlocksPattern(b, i);
  }
}

=== FILE: percent_coding.dfy ===
/** Percent-decoding of a URL query component as Go's `url.QueryUnescape`
    performs it: `%XX` with two hex digits of either case stands for one byte
    (section 2.1 of RFC 3986), `+` stands for a space, and a `%` without two
    hex digits after it is an error naming the offending fragment. */
module PercentCoding {
  import opened Bytes

  predicate IsHex(c: byte)
  {
    '0' <= c <= '9' || 'a' <= c <= 'f' || 'A' <= c <= 'F'
  }

  function HexValue(c: byte): (v: nat)
    requires IsHex(c)
    ensures v < 16
  {
    if '0' <= c <= '9' then c as int - '0' as int
    else if 'a' <= c <= 'f' then c as int - 'a' as int + 10
    else c as int - 'A' as int + 10
  }

  /** The hex digit for `v`, its letters in lower or upper case. */
  function HexDigit(v: nat, lower: bool): (c: byte)
    requires v < 16
    ensures IsHex(c) && HexValue(c) == v
    ensures v >= 10 && lower ==> 'a' <= c <= 'f'
    ensures v >= 10 && !lower ==> 'A' <= c <= 'F'
  {
    if v < 10 then (v + '0' as int) as char
    else if lower then (v - 10 + 'a' as int) as char
    else (v - 10 + 'A' as int) as char
  }

  /** A `%` at index `i` that is not followed by two hex digits. */
  predicate BadEscapeAt(s: bytes, i: int)
  {
    0 <= i < |s| && s[i] == '%' && !(i + 2 < |s| && IsHex(s[i + 1]) && IsHex(s[i + 2]))
  }

  predicate WellEscaped(s: bytes)
  {
    forall i | 0 <= i < |s| :: !BadEscapeAt(s, i)
  }

  /** The fragment Go reports for a bad escape at `i`: the `%` and at most
      two bytes after it. */
  function Fragment(s: bytes, i: nat): (fragment: bytes)
    requires i < |s|
  {
    if i + 3 <= |s| then s[i..i + 3] else s[i..]
  }

  /** `url.QueryUnescape(s)`: the decoded bytes, or the fragment that starts
      at the first malformed escape. */
  function QueryUnescape(s: bytes): (r: Result<bytes, bytes>)
    ensures r.Ok? ==> |r.value| <= |s|
    decreases |s|
  {
    if |s| == 0 then Ok([])
    else if s[0] == '%' then
      if |s| >= 3 && IsHex(s[1]) && IsHex(s[2]) then
        match QueryUnescape(s[3..])
        case Ok(t) => Ok([(HexValue(s[1]) * 16 + HexValue(s[2])) as char] + t)
        case Err(e) => Err(e)
      else Err(Fragment(s, 0))
    else
      match QueryUnescape(s[1..])
      case Ok(t) => Ok([if s[0] == '+' then ' ' else s[0]] + t)
      case Err(e) => Err(e)
  }

  /** Escapes are judged the same way after the first `n` bytes are dropped. */
  lemma BadEscapeShift(s: bytes, n: nat, j: int)
    requires n <= |s| && n <= j
    ensures BadEscapeAt(s, j) <==> BadEscapeAt(s[n..], j - n)
  {
    if j < |s| {
      assert s[n..][j - n] == s[j];
      if j + 2 < |s| {
        assert s[n..][j - n + 1] == s[j + 1] && s[n..][j - n + 2] == s[j + 2];
      }
    }
  }

  /** The first byte of a query that decoding consumes in one step: three for
      a well-formed escape, one otherwise. */
  function StepLength(s: bytes): (n: nat)
    requires |s| > 0 && !BadEscapeAt(s, 0)
    ensures n <= |s| && forall j :: 0 <= j < n ==> !BadEscapeAt(s, j)
  {
    if s[0] == '%' then 3 else 1
  }

  /** Decoding succeeds exactly when every `%` has two hex digits after it. */
  lemma {:induction false} UnescapeSucceedsIffWellEscaped(s: bytes)
    ensures QueryUnescape(s).Ok? <==> WellEscaped(s)
    decreases |s|
  {
    if |s| > 0 && !BadEscapeAt(s, 0) {
      var n := StepLength(s);
      UnescapeSucceedsIffWellEscaped(s[n..]);
      if WellEscaped(s) {
        forall i | 0 <= i < |s[n..]| ensures !BadEscapeAt(s[n..], i) {
          BadEscapeShift(s, n, i + n);
        }
      } else {
        var i :| 0 <= i < |s| && BadEscapeAt(s, i);
        BadEscapeShift(s, n, i);
      }
    }
  }

  /** `i` is the first index holding a `%` without two hex digits. */
  predicate FirstBadEscapeAt(s: bytes, i: int)
  {
    BadEscapeAt(s, i) && forall j :: 0 <= j < i ==> !BadEscapeAt(s, j)
  }

  /** A failed decoding reports the fragment that starts at the first `%`
      without two hex digits. */
  lemma {:induction false} UnescapeReportsFirstBadEscape(s: bytes)
    requires QueryUnescape(s).Err?
    ensures exists i :: FirstBadEscapeAt(s, i) && QueryUnescape(s).error == Fragment(s, i)
    decreases |s|
  {
    if BadEscapeAt(s, 0) {
      assert FirstBadEscapeAt(s, 0);
    } else {
      var n := StepLength(s);
      var t := s[n..];
      assert QueryUnescape(s).error == QueryUnescape(t).error;
      UnescapeReportsFirstBadEscape(t);
      var i :| FirstBadEscapeAt(t, i) && QueryUnescape(t).error == Fragment(t, i);
      FirstBadEscapeShift(s, n, i);
      assert Fragment(s, i + n) == Fragment(t, i);
    }
  }

  /** The first bad escape after a clean prefix of `n` bytes is the first bad
      escape of the whole query. */
  lemma FirstBadEscapeShift(s: bytes, n: nat, i: int)
    requires n <= |s| && forall j :: 0 <= j < n ==> !BadEscapeAt(s, j)
    requires FirstBadEscapeAt(s[n..], i)
    ensures FirstBadEscapeAt(s, i + n)
  {
    BadEscapeShift(s, n, i + n);
    forall j | n <= j < i + n ensures !BadEscapeAt(s, j) {
      BadEscapeShift(s, n, j);
    }
  }

  /** Decoding leaves a query unchanged exactly when it holds no `%` and no
      `+`; any escape or plus sign changes it. */
  lemma {:induction false} UnescapeIdentity(s: bytes)
    ensures QueryUnescape(s) == Ok(s) <==> '%' !in s && '+' !in s
    decreases |s|
  {
    if |s| > 0 {
      UnescapeIdentity(s[1..]);
      if s[0] == '%' && |s| >= 3 && IsHex(s[1]) && IsHex(s[2]) {
        var r := QueryUnescape(s);
        if r.Ok? {
          assert |r.value| < |s|;
        }
      }
      assert s == [s[0]] + s[1..];
    }
  }

  /** A query with no `%` decodes byte for byte: every `+` becomes a space
      and every other byte stays as it is. */
  lemma {:induction false} UnescapePlusFree(s: bytes)
    requires '%' !in s
    ensures QueryUnescape(s).Ok? && |QueryUnescape(s).value| == |s|
    ensures forall i :: 0 <= i < |s| ==> QueryUnescape(s).value[i] == if s[i] == '+' then ' ' else s[i]
    decreases |s|
  {
    if |s| > 0 {
      UnescapePlusFree(s[1..]);
      var t := QueryUnescape(s[1..]).value;
      forall i | 1 <= i < |s|
        ensures QueryUnescape(s).value[i] == if s[i] == '+' then ' ' else s[i]
      {
        assert s[1..][i - 1] == s[i];
      }
    }
  }

  /** A byte that section 2.3 of RFC 3986 lets a client send unescaped. */
  predicate Unreserved(c: byte)
  {
    'A' <= c <= 'Z' || 'a' <= c <= 'z' || '0' <= c <= '9' || c == '-' || c == '.' || c == '_' || c == '~'
  }

  /** The percent-encoding a client applies: unreserved bytes as they are,
      every other byte as `%` and two hex digits, upper-case or lower-case
      as the client chooses. */
  function Escape(b: bytes, lower: bool): (r: bytes)
    ensures ' ' !in r && '\n' !in r && '+' !in r
  {
    if |b| == 0 then []
    else if Unreserved(b[0]) then [b[0]] + Escape(b[1..], lower)
    else ['%', HexDigit(b[0] as int / 16, lower), HexDigit(b[0] as int % 16, lower)] + Escape(b[1..], lower)
  }

  /** Decoding undoes the client's encoding byte for byte, whichever case
      its hex digits are in. */
  lemma {:induction false} UnescapeEscape(b: bytes, lower: bool)
    ensures QueryUnescape(Escape(b, lower)) == Ok(b)
  {
    if |b| > 0 {
      UnescapeEscape(b[1..], lower);
      var e := Escape(b, lower);
      if Unreserved(b[0]) {
        assert e[1..] == Escape(b[1..], lower);
      } else {
        assert e[3..] == Escape(b[1..], lower);
        var c := b[0] as int;
        assert HexValue(e[1]) * 16 + HexValue(e[2]) == c;
      }
      assert b == [b[0]] + b[1..];
    }
  }

  /** A client-encoded payload that contains a space contains `%20`, the
      token that makes the gateway percent-decode. */
  lemma {:induction false} EscapeMarksSpaces(b: bytes, lower: bool)
    requires ' ' in b
    ensures Contains(Escape(b, lower), "%20")
  {
    var e := Escape(b, lower);
    if b[0] == ' ' {
      assert OccursAt(e, "%20", 0);
    } else {
      var rest := Escape(b[1..], lower);
      EscapeMarksSpaces(b[1..], lower);
      var i :| OccursAt(rest, "%20", i);
      var head := e[..|e| - |rest|];
      assert e == head + rest + [];
      OccursInContext(head, rest, [], "%20", i);
    }
  }

  /** The escaped form of one byte inside a Go quoted string. */
  function QuoteByte(c: byte): (r: bytes)
    ensures ' ' <= c <= '~' && c != '"' && c != '\\' ==> r == [c]
  {
    if c == '"' || c == '\\' then ['\\', c]
    else if ' ' <= c <= '~' then [c]
    else if c as int == 7 then "\\a"
    else if c as int == 8 then "\\b"
    else if c as int == 12 then "\\f"
    else if c == '\n' then "\\n"
    else if c == '\r' then "\\r"
    else if c == '\t' then "\\t"
    else if c as int == 11 then "\\v"
    else ['\\', 'x', HexDigit(c as int / 16, true), HexDigit(c as int % 16, true)]
  }

  function QuoteBody(s: bytes): (r: bytes)
    ensures (forall i :: 0 <= i < |s| ==> ' ' <= s[i] <= '~' && s[i] != '"' && s[i] != '\\') ==> r == s
  {
    if |s| == 0 then [] else QuoteByte(s[0]) + QuoteBody(s[1..])
  }

  /** `strconv.Quote` on a byte string of ASCII bytes. */
  function Quote(s: bytes): (quoted: bytes)
  {
    "\"" + QuoteBody(s) + "\""
  }

  /** The text of Go's `url.EscapeError` for a fragment. */
  function EscapeErrorText(fragment: bytes): (text: bytes)
    ensures |text| >= 21 && text[..20] == "invalid URL escape \"" && text[|text| - 1] == '"'
    ensures (forall i :: 0 <= i < |fragment| ==> ' ' <= fragment[i] <= '~' && fragment[i] != '"' && fragment[i] != '\\')
      ==> text == "invalid URL escape \"" + fragment + "\""
  {
    "invalid URL escape " + Quote(fragment)
  }
}

=== FILE: request_line.dfy ===
/** The first line of the HTTP request and the regular expression
    `^GET /(.+?)\?(.+) HTTP/1\..+` the handler matches it against. Group 1 is
    the requested output format, group 2 the raw query.

    Every literal in the pattern is ASCII and no byte of a multi-byte UTF-8
    sequence is ASCII, so matching rune by rune and matching byte by byte
    accept the same lines with the same groups; the model works on bytes.
    The pattern's `.` matches any byte except a newline. */
module RequestLine {
  import opened Bytes

  datatype Request = Request(format: bytes, query: bytes)

  /** `^GET /`: the method and the leading slash of the path. */
  const GetPrefix: bytes := "GET /"

  /** ` HTTP/1\.`: the protocol name and major version. */
  const Version: bytes := " HTTP/1."

  /** No newline in `line[lo..hi]`: the span may be matched by `.+`. */
  predicate DotsOnly(line: bytes, lo: int, hi: int)
    requires 0 <= lo <= hi <= |line|
  {
    forall k :: lo <= k < hi ==> line[k] != '\n'
  }

  /** The pattern matches `line` with group 1 = `line[5..p]` and group 2 =
      `line[p + 1..m]`: both groups non-empty and newline-free, a `?`
      between them, ` HTTP/1.` right after group 2 and one more non-newline
      byte after that. */
  ghost predicate MatchAt(line: bytes, p: int, m: int)
  {
    && 6 <= p && p + 2 <= m && m + 8 < |line|
    && line[..5] == GetPrefix
    && line[p] == '?'
    && line[m..m + 8] == Version
    && DotsOnly(line, 5, p)
    && DotsOnly(line, p + 1, m)
    && line[m + 8] != '\n'
  }

  /** The first `?` at or after `i`, unless a newline comes first. */
  function FirstQuestion(line: bytes, i: nat): (r: Option<nat>)
    requires i <= |line|
    ensures r.Some? ==> i <= r.value < |line| && line[r.value] == '?' && DotsOnly(line, i, r.value)
    ensures r.Some? ==> forall k :: i <= k < r.value ==> line[k] != '?'
    ensures r.None? ==> forall k :: i <= k < |line| && line[k] == '?' ==> !DotsOnly(line, i, k)
    decreases |line| - i
  {
    if i == |line| || line[i] == '\n' then None
    else if line[i] == '?' then Some(i)
    else FirstQuestion(line, i + 1)
  }

  /** The index of the first newline at or after `i`, or the length of the line. */
  function LineEnd(line: bytes, i: nat): (r: nat)
    requires i <= |line|
    ensures i <= r <= |line| && DotsOnly(line, i, r)
    ensures r < |line| ==> line[r] == '\n'
    decreases |line| - i
  {
    if i == |line| || line[i] == '\n' then i else LineEnd(line, i + 1)
  }

  /** The greatest `m` with `lo <= m <= hi` at which ` HTTP/1.` starts. */
  function LastVersion(line: bytes, lo: int, hi: int): (r: Option<nat>)
    requires 0 <= lo
    ensures r.Some? ==> lo <= r.value <= hi && OccursAt(line, Version, r.value)
    ensures r.Some? ==> forall k :: r.value < k <= hi ==> !OccursAt(line, Version, k)
    ensures r.None? ==> forall k :: lo <= k <= hi ==> !OccursAt(line, Version, k)
    decreases hi - lo
  {
    if hi < lo then None
    else if hi + 8 <= |line| && line[hi..hi + 8] == Version then Some(hi)
    else LastVersion(line, lo, hi - 1)
  }

  /** Where the pattern puts the end of group 1 and the end of group 2, as
      Go's leftmost-first matching chooses them: the lazy group 1 takes the
      first `?` it can, the greedy group 2 then runs to the last ` HTTP/1.`
      that still leaves a non-newline byte after it. */
  function MatchIndices(line: bytes): (r: Option<(nat, nat)>)
  {
    if |line| < 6 || line[..5] != GetPrefix || line[5] == '\n' then None
    else match FirstQuestion(line, 6)
      case None => None
      case Some(p) =>
        var e := LineEnd(line, p + 1);
        match LastVersion(line, p + 2, e - 9)
        case None => None
        case Some(m) => Some((p, m))
  }

  /** `httpFirstLinePattern.FindStringSubmatch(firstLine)`: the format and
      query of a matching line, `None` for a line the pattern rejects. */
  function ParseRequestLine(line: bytes): (r: Option<Request>)
    ensures r.Some? ==> |r.value.format| >= 1 && |r.value.query| >= 1
    ensures r.Some? ==> '\n' !in r.value.format && '\n' !in r.value.query
  {
    match MatchIndices(line)
    case None => None
    case Some((p, m)) =>
      MatchIndicesSound(line);
      assert forall k :: p + 1 <= k < m ==> line[k] != '\n';
      Some(Request(line[5..p], line[p + 1..m]))
  }

  /** Whatever the recogniser reports is a match of the pattern. */
  lemma MatchIndicesSound(line: bytes)
    ensures MatchIndices(line).Some? ==> MatchAt(line, MatchIndices(line).value.0, MatchIndices(line).value.1)
  {
    if MatchIndices(line).Some? {
      var p := FirstQuestion(line, 6).value;
      var e := LineEnd(line, p + 1);
      var m := LastVersion(line, p + 2, e - 9).value;
      assert line[m..m + 8] == Version;
      assert DotsOnly(line, 5, p);
    }
  }

  /** The recogniser finds a match whenever one exists, and the one it
      finds is the one leftmost-first matching prefers: no shorter group 1,
      and for the same group 1 no longer group 2. */
  lemma MatchIndicesLeftmostFirst(line: bytes, p': int, m': int)
    requires MatchAt(line, p', m')
    ensures MatchIndices(line).Some?
    ensures MatchIndices(line).value.0 <= p'
    ensures MatchIndices(line).value.0 == p' ==> m' <= MatchIndices(line).value.1
  {
    assert line[5] != '\n';
    assert DotsOnly(line, 6, p');
    var q := FirstQuestion(line, 6);
    assert q.Some?;
    var p := q.value;
    var e := LineEnd(line, p + 1);
    assert line[m'..m' + 8] == Version;
    forall k | p + 1 <= k <= m' + 8
      ensures line[k] != '\n'
    {
      if k < p' {
      } else if k == p' {
      } else if k < m' {
      } else if k < m' + 8 {
        assert line[k] == Version[k - m'];
      }
    }
    assert m' + 8 < e;
    assert OccursAt(line, Version, m');
    var v := LastVersion(line, p + 2, e - 9);
    assert v.Some?;
  }

  /** The line is rejected exactly when the pattern has no match. */
  lemma ParseRejectsExactlyNonMatches(line: bytes)
    ensures ParseRequestLine(line).None? <==> forall p, m :: !MatchAt(line, p, m)
  {
    if ParseRequestLine(line).None? {
      forall p, m ensures !MatchAt(line, p, m) {
        if MatchAt(line, p, m) {
          MatchIndicesLeftmostFirst(line, p, m);
        }
      }
    } else {
      MatchIndicesSound(line);
    }
  }

  /** The request line a client sends: `GET /<format>?<query> HTTP/1.<minor>`. */
  function BuildRequestLine(format: bytes, query: bytes, minor: byte): (line: bytes)
  {
    GetPrefix + format + "?" + query + Version + [minor]
  }

  /** The request line a client sends for a format and a query is read back
      as that format and query. */
  lemma ParseBuiltLine(format: bytes, query: bytes, minor: byte)
    requires |format| >= 1 && '?' !in format && '\n' !in format
    requires |query| >= 1 && '\n' !in query
    requires minor != '\n'
    ensures ParseRequestLine(BuildRequestLine(format, query, minor)) == Some(Request(format, query))
  {
    var line := BuildRequestLine(format, query, minor);
    var p := 5 + |format|;
    var m := p + 1 + |query|;
    assert line[..5] == GetPrefix;
    assert line[5..p] == format;
    assert line[p] == '?';
    assert line[p + 1..m] == query;
    assert line[m..m + 8] == Version;
    assert |line| == m + 9;
    assert DotsOnly(line, 5, p) by {
      forall k | 5 <= k < p ensures line[k] != '\n' {
        assert line[k] == format[k - 5];
      }
    }
    assert DotsOnly(line, p + 1, m) by {
      forall k | p + 1 <= k < m ensures line[k] != '\n' {
        assert line[k] == query[k - p - 1];
      }
    }
    assert MatchAt(line, p, m);
    MatchIndicesLeftmostFirst(line, p, m);
    MatchIndicesSound(line);
    var (p2, m2) := MatchIndices(line).value;
    assert MatchAt(line, p2, m2);
    assert p2 == p;
    assert m2 == m;
  }

  /** A line with nothing between the `?` and ` HTTP/1.` does not match:
      group 2 cannot be empty. */
  lemma EmptyQueryLineRejected(format: bytes, minor: byte)
    requires |format| >= 1 && '?' !in format
    ensures ParseRequestLine(GetPrefix + format + "?" + Version + [minor]) == None
  {
    var line := GetPrefix + format + "?" + Version + [minor];
    var q := 5 + |format|;
    forall k | 6 <= k < |line| - 1 && k != q ensures line[k] != '?' {
      if k < q {
        assert line[k] == format[k - 5];
      } else {
        assert line[k] == Version[k - q - 1];
      }
    }
    forall p, m ensures !MatchAt(line, p, m) {
    }
    ParseRejectsExactlyNonMatches(line);
  }

  /** A line with no `?` at all, or one that does not start with `GET /`,
      does not match. */
  lemma QuestionMarkAndGetRequired(line: bytes)
    requires '?' !in line || |line| < 5 || line[..5] != GetPrefix
    ensures ParseRequestLine(line) == None
  {
    MatchIndicesSound(line);
  }
}
